=== FILE: README.md ===
# Environment accessors, logger configuration and coloured output

A Dafny model of the configuration helpers of the CNV_apps utilities. There are
two generations of typed environment-variable accessors. `CnQuant_utilities`
raises `EnvironmentVariableNotFoundError` for a missing variable or path and
falls back to a default for malformed numbers and booleans. The older
`cnv_apps_utilities` raises `ValueError` and always checks that a path exists.
The model also covers the decisions `Logger.__init__` makes (level names,
numeric levels, handler selection) and the line `print_in_color` writes.

The process environment is a `map<string, string>`. `os.path.exists` is a
predicate passed in by the caller (`ExistsOracle`). A raised exception is an
`Err` value. Everything is a pure function, so the accessors cannot change
the environment, and two calls with the same environment return the same
result by construction.

Files, one module each:

- `results.dfy` (`Results`): `Option`, `Result`, and the built-in `ValueError` and `TypeError` as `PyError`.
- `py_text.dfy` (`PyText`): ASCII `str.lower()`; the whitespace `int(str)` skips;
  the base-10 grammar of `int(str)`, with sign, `_` separators and Python 3.11's
  4300-digit bound; the decimal rendering of integers; `str(None)`.
- `environ.dfy` (`Environ`): the environment, `os.getenv`, `Path`.
- `cnquant_variables.dfy` (`CnQuantVariables`): the newer accessors.
- `cnv_variables.dfy` (`CnvAppsVariables`): the older accessors.
- `variant_comparison.dfy` (`VariantComparison`): how the two generations relate.
- `logger_config.dfy` (`LoggerConfig`): `Logger.__init__` as a function on a registry of loggers keyed by name.
- `console_output.dfy` (`ConsoleOutput`): `print_in_color`.

The code and its docstrings disagree in several places, and the model always
follows the code. Two of these change a returned value, and the Findings table
lists them. When the variable is unset and no error is requested, the docstring
of the CnQuant `get_string_from_env` (lines 164-165) says the default is
returned; the code returns `str(None)`, which is `"None"`. The cnv_apps
`get_integer_from_env` promises the default for an unset variable (lines 72-75)
but lets a TypeError escape. Each of these two accessors is modelled as written
and as documented.

The others concern what is raised or how a word is read. The CnQuant
`get_log_directory`, `get_path_from_env` and `get_string_from_env` docstrings
say they raise ValueError (lines 20-21, 31-32, 59-60, 154-155, 168), but the
code raises `EnvironmentVariableNotFoundError` (lines 46, 66, 70, 180), which
derives from `Exception` and not from ValueError. A caller that catches
ValueError, as the docstrings suggest, does not catch these errors. The
`get_string_from_env` docstring also says an unset variable always raises; the
code raises only when `error_on_missing_value` is set. The
`get_boolean_from_env` docstring reads anything other than a true word as
`False` (line 208); the code returns `default_value` for a word that is in
neither list (lines 222-224).

Lower-casing is ASCII only. For every comparison the source makes after
`lower()`, this gives the same answer as Python's full Unicode `lower()`. The
only non-ASCII characters whose lower case contains an ASCII letter are U+212A
(to `k`) and U+0130 (to `i` followed by U+0307). Most comparisons are against
fixed words: the boolean words and the six level names. None of these words
contains `k` or U+0307. So a value holding either character matches no word
under either lowering, and an ASCII value lowers the same way under both. One
comparison is not against a fixed word: cnv_apps_utilities/logger.py:106
compares the lowered `log_level` with `log_level_for_emails`, which can be any
text. That line runs only after lines 42-43 have accepted `log_level`, so its
lowered form is one of the six level names. A value that Python lowers to a level
name is plain ASCII: every non-ASCII character other than those two lowers to
something non-ASCII, and those two bring in `k` or U+0307. Both lowerings then agree
on `log_level`, and the comparison on line 106 gives the same answer.

## Model

| member | source | states |
|---|---|---|
| CnQuantVariables.NewNotFoundError | CnQuant_utilities/get_variables_from_path.py:8-11 | the error keeps the variable name; an empty message becomes "Environment variable '<name>' not found." and a non-empty one is kept |
| CnQuantVariables.DefaultMessageNamesVariable | CnQuant_utilities/get_variables_from_path.py:10 | the default message holds the variable name at a fixed offset, so the name can be read back from it |
| Environ.GetEnv | CnQuant_utilities/get_variables_from_path.py:40 | os.getenv gives the value exactly when the name is set, and nothing otherwise |
| CnQuantVariables.GetLogDirectory | CnQuant_utilities/get_variables_from_path.py:40-47 | unset gives Path("."); set and existing gives Path(value); set and missing raises the not-found error naming the variable |
| CnQuantVariables.GetPathFromEnv | CnQuant_utilities/get_variables_from_path.py:63-72 | unset always raises; success exactly when set and, if the check is requested, the path exists; success returns Path(value) |
| CnQuantVariables.LogDirectoryIsCheckedPath | CnQuant_utilities/get_variables_from_path.py:40-72 | for a set variable the log directory equals the path accessor with its check on; for an unset one it is "." where the path accessor fails |
| CnQuantVariables.PathWithoutCheckIgnoresFilesystem | CnQuant_utilities/get_variables_from_path.py:68-69 | with the check off, the answer is the same for every filesystem |
| CnQuantVariables.GetIntegerFromEnv | CnQuant_utilities/get_variables_from_path.py:98-108 | never fails; unset or text int() rejects gives the default, otherwise the parsed value |
| CnQuantVariables.IntegerRoundTrip | CnQuant_utilities/get_variables_from_path.py:104-108 | a variable holding the decimal rendering of n reads back as n when n has at most 4300 digits, and gives the default when it has more |
| CnQuantVariables.IntegerBlankGivesDefault | CnQuant_utilities/get_variables_from_path.py:104-108 | an empty value, or one made only of the whitespace int() skips, gives the default |
| CnQuantVariables.GetFloatFromEnv | CnQuant_utilities/get_variables_from_path.py:137-147 | unset or unparseable gives the default, otherwise the parsed float (the parser is a parameter) |
| CnQuantVariables.FloatFollowsIntegerPolicy | CnQuant_utilities/get_variables_from_path.py:137-147 | given int() as its parser, the float accessor is the integer accessor: same fallbacks for unset and invalid text |
| CnQuantVariables.GetStringFromEnv | CnQuant_utilities/get_variables_from_path.py:177-186 | as written: flag set and unset raises; set gives the exact value; unset without the flag gives "None" |
| CnQuantVariables.GetStringFromEnvIntended | CnQuant_utilities/get_variables_from_path.py:149-175 | as documented: the same, except that an unset variable without the flag gives the default |
| CnQuantVariables.StringDefaultIsUnreachable | CnQuant_utilities/get_variables_from_path.py:182-186 | the written and documented accessors differ exactly when the variable is unset, the flag is clear and the default is not "None" |
| CnQuantVariables.StringDefaultCounterexample | CnQuant_utilities/get_variables_from_path.py:177-186 | on an empty environment with default "fallback", the written accessor returns "None" and the documented one "fallback" |
| CnQuantVariables.BooleanWordsDisjoint | CnQuant_utilities/get_variables_from_path.py:218-221 | no word is in both the true set and the false set |
| CnQuantVariables.ClassifyBoolean | CnQuant_utilities/get_variables_from_path.py:217-224 | true exactly for a lowered value in {true,1,yes,on}; false exactly for one in {false,0,no,off}; nothing otherwise |
| CnQuantVariables.GetBooleanFromEnv | CnQuant_utilities/get_variables_from_path.py:211-224 | unset or an unrecognised value gives the default; a recognised word gives its boolean |
| CnQuantVariables.BooleanCaseInsensitive | CnQuant_utilities/get_variables_from_path.py:217 | a value and its lower-cased form give the same result |
| CnQuantVariables.BooleanTrueCasings | CnQuant_utilities/get_variables_from_path.py:217-219 | "TRUE", "True" and "On" are true |
| CnQuantVariables.BooleanFalseCasings | CnQuant_utilities/get_variables_from_path.py:217-221 | "FALSE" and "No" are false |
| CnQuantVariables.BooleanNoTrimming | CnQuant_utilities/get_variables_from_path.py:217-224 | " true", "yes\n" and "maybe" give the default, because values are not stripped |
| PyText.AsciiLower | CnQuant_utilities/get_variables_from_path.py:217 | the lowered text has the same length, no upper-case ASCII letter, and lowers each character independently |
| PyText.AsciiLowerIdempotent | CnQuant_utilities/get_variables_from_path.py:217 | lowering twice is lowering once |
| PyText.ParseInt | CnQuant_utilities/get_variables_from_path.py:105 | int(s): blank text is refused; an accepted text holds a digit, and a '-' when the value is negative; partners: ParseIntRoundTrip, ParseIntRejectsBlank and the example lemmas below |
| PyText.ParseIntRoundTrip | CnQuant_utilities/get_variables_from_path.py:105 | int() of the decimal rendering of n is n when n has at most 4300 digits, and is refused when it has more |
| PyText.ParseIntRejectsBlank | CnQuant_utilities/get_variables_from_path.py:105 | int() refuses empty text and text made only of the whitespace it skips |
| PyText.ParseIntRejectsFileSeparator | CnQuant_utilities/get_variables_from_path.py:105 | int() refuses "\x1c5": U+001C is whitespace to str.isspace() but is not skipped |
| PyText.ParseIntSkipsSpace | CnQuant_utilities/get_variables_from_path.py:105 | int(" 7\n") is 7 |
| PyText.ParseIntSeparator | CnQuant_utilities/get_variables_from_path.py:105 | int("1_0") is 10 |
| PyText.ParseIntDoubleSeparator | CnQuant_utilities/get_variables_from_path.py:105 | int("1__0") is refused |
| PyText.IntToString | CnQuant_utilities/get_variables_from_path.py:105 | the decimal rendering: non-empty, a '-' first exactly for negative numbers, digits everywhere else, and no leading zero unless the magnitude is 0; ParseIntRoundTrip reads it back |
| PyText.NatToString | CnQuant_utilities/get_variables_from_path.py:105 | str(n) for n >= 0 is non-empty, all digits, and starts with '0' only for 0 |
| PyText.StrOfOptional | CnQuant_utilities/get_variables_from_path.py:183 | str() of a set value is that value unchanged, and str(None) is the text "None", never an error; StringDefaultCounterexample shows that this text, and not the default, comes back for an unset variable |
| CnvAppsVariables.GetPathFromEnv | cnv_apps_utilities/get_variables_from_path.py:36-51 | unset raises ValueError("Error: <name> environment variable not set!"); a missing path raises ValueError("Path set in .env file <value> does not exist."); otherwise Path(value) |
| CnvAppsVariables.GetIntegerFromEnv | cnv_apps_utilities/get_variables_from_path.py:79-86 | as written: unset raises TypeError; valid text gives its value; other text gives the default |
| CnvAppsVariables.GetIntegerFromEnvIntended | cnv_apps_utilities/get_variables_from_path.py:53-78 | as documented: unset also gives the default, which is 300 when none is passed |
| CnvAppsVariables.IntegerUnsetEscapes | cnv_apps_utilities/get_variables_from_path.py:79-86 | the written accessor fails exactly when the variable is unset, and agrees with the documented one whenever it is set |
| CnvAppsVariables.IntegerUnsetCounterexample | cnv_apps_utilities/get_variables_from_path.py:81-83 | on an empty environment the written accessor raises TypeError; the documented one returns 300 |
| CnvAppsVariables.IntegerRoundTrip | cnv_apps_utilities/get_variables_from_path.py:79-86 | the decimal rendering of n reads back as n when n has at most 4300 digits; longer renderings and any other text int() refuses give 300 when no default is passed |
| CnvAppsVariables.GetStringFromEnv | cnv_apps_utilities/get_variables_from_path.py:113-121 | unset raises ValueError naming the variable; set gives the value verbatim, the empty string included |
| VariantComparison.PathAccessorsAgree | cnv_apps_utilities/get_variables_from_path.py:36-51 | with its check on, the newer path accessor succeeds on exactly the same inputs as the older one, with the same path |
| VariantComparison.IntegerAccessorsAgree | cnv_apps_utilities/get_variables_from_path.py:79-86 | for a set variable both integer accessors give the same number; for an unset one only the newer returns the default; the documented older one equals the newer everywhere |
| VariantComparison.StringAccessorsAgree | cnv_apps_utilities/get_variables_from_path.py:113-121 | with the error flag, the documented newer string accessor succeeds exactly when the older one does, with the same value; without the flag it gives the older result or the default |
| LoggerConfig.NumericLevel | cnv_apps_utilities/logger.py:51-78 | the i-th accepted name (none, debug, info, warning, error, critical) maps to level 10*i; anything else maps to NOTSET |
| LoggerConfig.NumericLevelIncreasing | cnv_apps_utilities/logger.py:40 | levels strictly increase along the list of accepted names |
| LoggerConfig.Registered | cnv_apps_utilities/logger.py:36 | getLogger adds a fresh logger (NOTSET, no handlers) for a new name and changes nothing else |
| LoggerConfig.FileLevelName | cnv_apps_utilities/logger.py:39 | a file level of None is read as "none"; a given one keeps its length and has no upper-case ASCII letter left; NoneFileLevelAccepted shows that "none" passes validation |
| LoggerConfig.LevelsValid | cnv_apps_utilities/logger.py:42-46 | both normalised levels are accepted names; a file level of None never causes a rejection |
| LoggerConfig.WantsEmail | cnv_apps_utilities/logger.py:106 | when email is wanted, the email level has no upper-case ASCII letter, because it is compared with the lowered log_level |
| LoggerConfig.PlannedHandlers | cnv_apps_utilities/logger.py:81-120 | a console handler at the console level first; a file handler at the file level exactly when a file is given; an email handler at CRITICAL only when all four SMTP settings are non-empty and the lowered level equals the email level |
| LoggerConfig.Construct | cnv_apps_utilities/logger.py:36-120 | rejects exactly when a normalised level is unknown, checking log_level first and quoting the argument as passed; on success the logger level is INFO, existing handlers are kept and a logger without handlers gets the planned ones; other loggers are untouched and the name is registered even on rejection |
| LoggerConfig.ReconstructionKeepsHandlers | cnv_apps_utilities/logger.py:80-81 | constructing again under the same name, with any accepted arguments, leaves the registry unchanged |
| LoggerConfig.UpperCaseLevelAccepted | cnv_apps_utilities/logger.py:37-42 | "INFO" is accepted because it is lowered before validation |
| LoggerConfig.NoneFileLevelAccepted | cnv_apps_utilities/logger.py:39 | a file level of None is read as "none" and accepted |
| LoggerConfig.UnknownLevelRejected | cnv_apps_utilities/logger.py:42-43 | "verbose" is refused |
| LoggerConfig.UpperCaseEmailLevelNeverMatches | cnv_apps_utilities/logger.py:106 | an email level with an upper-case letter never enables email, because only log_level is lowered |
| LoggerConfig.DefaultLevelsSendNoEmail | cnv_apps_utilities/logger.py:12-19 | with the default levels (info against critical) no email handler is planned |
| ConsoleOutput.PrintInColor | cnv_apps_utilities/console_output.py:15-28 | an unknown colour raises ValueError listing the colours; otherwise the line is the 5-character colour code, the message, "\033[00m" and a newline |
| ConsoleOutput.ColorCodesInjective | cnv_apps_utilities/console_output.py:15-23 | every code is ESC [ two digits m, and distinct colours have distinct codes |
| ConsoleOutput.PrintedLineDeterminesInput | cnv_apps_utilities/console_output.py:28 | the printed line determines both the message and the colour |
| ConsoleOutput.ColorNamesCaseSensitive | cnv_apps_utilities/console_output.py:25-26 | "Red" and "WHITE" are rejected while "red" is accepted |
| ConsoleOutput.DefaultIsWhite | cnv_apps_utilities/console_output.py:3 | with no colour given, the message is wrapped in "\033[97m" and "\033[00m" |

## Findings

| source | as written | input that shows it | evidently intended | confidence | as-written member | corrected member |
|---|---|---|---|---|---|---|
| CnQuant_utilities/get_variables_from_path.py:182-186 | `str(object=env_value)` turns an unset variable into the text "None"; `str()` never raises ValueError, so `default_value` is never returned | empty environment, `default_value="fallback"`, `error_on_missing_value=False` returns "None" | return `default_value`, as the docstring (lines 164-165) says | not executed; high | CnQuantVariables.StringDefaultCounterexample | CnQuantVariables.GetStringFromEnvIntended |
| cnv_apps_utilities/get_variables_from_path.py:81-83 | `int(None)` raises TypeError, which `except ValueError` does not catch | empty environment, any default: TypeError escapes | return `default_value`, as the docstring (lines 72-75) says | not executed; high | CnvAppsVariables.IntegerUnsetCounterexample | CnvAppsVariables.GetIntegerFromEnvIntended |

## Left out

- Printing and `log_error` calls: these are diagnostics only. Two of the fallback messages (CnQuant lines 107 and 146) quote the variable name where the value was evidently meant; they are not modelled.
- The import of `log_error` from its own module (cnv_apps_utilities/get_variables_from_path.py:5) means that module cannot load as shipped. Only its function bodies are modelled.
- CnQuantVariables.GetFloatFromEnv: `float()` is a parameter, because floating-point parsing is out of scope. Only the unset/invalid/valid control flow is modelled.
- PyText.ParseInt: Unicode decimal digits, which `int()` also accepts, are not modelled. Only ASCII digits are.
- PyText.ParseInt: the digit bound is fixed at Python 3.11's default of 4300. Changing it through `sys.set_int_max_str_digits` or `PYTHONINTMAXSTRDIGITS` is not modelled.
- PyText.IntToString: renders integers of any length. Python's `str()` refuses more than 4300 digits, but the rendering is used only to state what text a variable holds.
- PyText.AsciiLower: lowers ASCII letters only. The argument above shows this does not change any comparison the source makes.
- `pathlib.Path` normalisation (for example, dropping a trailing slash) is not modelled. A path is the text it was built from.
- The real filesystem is not modelled; existence is a fixed predicate.
- Case-insensitive variable names on Windows are not modelled.
- Logger: formatters, handler objects and the SMTP connection are logging-library plumbing and are not modelled.
- LoggerConfig.PlannedHandlers: plans a file handler for every given `log_file`. `os.makedirs` of the file's directory (logger.py:94) is not modelled, because it touches the filesystem. For a bare file name such as `app.log` the directory part is empty, and `os.makedirs("")` raises FileNotFoundError before the file handler is added.
- LoggerConfig.Construct: returns `Built` with a console and a file handler for a bare `log_file` name. The source raises FileNotFoundError there (logger.py:94), after the console handler is already attached (logger.py:89), because `os.makedirs` is not modelled.
- Logger: `str()` of a `Path` given as `log_file` is not modelled.
- LoggerConfig.Registered: adds a fresh NOTSET logger for every new name. The logger hierarchy and propagation are not modelled, so `""` and `"root"` are not treated as the root logger, which starts at WARNING and may already have handlers.
- Logger: `get_logger` only returns the stored logger and is not modelled.
- ConsoleOutput.PrintInColor: takes the message as a string. `str()` of arbitrary objects is not modelled.
- CnQuant_utilities/logger_setup.py is not part of this model. It is logging-library wiring.
- Both crash_report.py files are not part of this model. They do SMTP network I/O and use a clock.
- cnv_apps_utilities/download_annotations.py is not part of this model. It does HTTP and file writes.
- cnv_apps_utilities/json_functions.py is not part of this model. It does file I/O and JSON parsing.
- setup.py is not part of this model. It is packaging metadata.

=== FILE: cnquant_variables.dfy ===
/** Typed environment accessors of the CnQuant utilities: a missing variable or
    path raises `EnvironmentVariableNotFoundError` (here an `Err`), while a
    malformed number or boolean falls back to the caller's default. */
module CnQuantVariables {
  import opened Results
  import opened PyText
  import opened Environ

  /** The one error kind: the name of the offending variable and a message. */
  datatype NotFoundError = EnvironmentVariableNotFoundError(variableName: string, message: string)

  /** The exception constructor: an empty message is replaced by one naming
      the variable. */
  function NewNotFoundError(variableName: string, message: string := ""): (e: NotFoundError)
    ensures e.variableName == variableName
    ensures message != "" ==> e.message == message
    ensures message == "" ==> e.message == "Environment variable '" + variableName + "' not found."
  {
    EnvironmentVariableNotFoundError(
      variableName,
      if message != "" then message else "Environment variable '" + variableName + "' not found.")
  }

  /** The default message quotes the variable name right after its fixed
      prefix, so the name can be read back from it. */
  lemma DefaultMessageNamesVariable(name: string)
    ensures var m := NewNotFoundError(name).message;
      |m| == |name| + 34 && m[22..22 + |name|] == name
  {
  }

  /** `get_log_directory`: unset means the current directory; a set value must
      name an existing path. Nothing is created. */
  function GetLogDirectory(env: Environment, pathExists: ExistsOracle, envVariable: string)
    : (r: Result<Path, NotFoundError>)
    ensures envVariable !in env ==> r == Ok(Path("."))
    ensures envVariable in env && pathExists(env[envVariable]) ==> r == Ok(Path(env[envVariable]))
    ensures envVariable in env && !pathExists(env[envVariable]) ==>
      r == Err(NewNotFoundError(envVariable))
  {
    match GetEnv(env, envVariable)
    case None => Ok(Path("."))
    case Some(logDirectory) =>
      if !pathExists(logDirectory) then Err(NewNotFoundError(envVariable))
      else Ok(Path(logDirectory))
  }

  /** `get_path_from_env`: unset always raises; the existence check is made
      only when `checkIfExists` holds. */
  function GetPathFromEnv(env: Environment, pathExists: ExistsOracle, envVariable: string,
                          checkIfExists: bool := true)
    : (r: Result<Path, NotFoundError>)
    ensures envVariable !in env ==> r == Err(NewNotFoundError(envVariable))
    ensures r.Ok? <==> envVariable in env && (checkIfExists ==> pathExists(env[envVariable]))
    ensures r.Ok? ==> r.value == Path(env[envVariable])
    ensures r.Err? ==> r.error == NewNotFoundError(envVariable)
  {
    match GetEnv(env, envVariable)
    case None => Err(NewNotFoundError(envVariable))
    case Some(envValue) =>
      if checkIfExists && !pathExists(envValue) then Err(NewNotFoundError(envVariable))
      else Ok(Path(envValue))
  }

  /** Without the existence check the predicate is never consulted: any two
      views of the filesystem give the same answer. */
  lemma PathWithoutCheckIgnoresFilesystem(env: Environment, e1: ExistsOracle, e2: ExistsOracle,
                                          envVariable: string)
    ensures GetPathFromEnv(env, e1, envVariable, false) == GetPathFromEnv(env, e2, envVariable, false)
  {
  }

  /** The log directory is the checked path of the same variable, except that
      an unset variable means the current directory instead of an error. */
  lemma LogDirectoryIsCheckedPath(env: Environment, pathExists: ExistsOracle, envVariable: string)
    ensures envVariable in env ==>
      GetLogDirectory(env, pathExists, envVariable) == GetPathFromEnv(env, pathExists, envVariable, true)
    ensures envVariable !in env ==>
      GetLogDirectory(env, pathExists, envVariable) == Ok(Path("."))
      && GetPathFromEnv(env, pathExists, envVariable, true).Err?
  {
  }

  /** `get_integer_from_env`: never raises; unset or unparseable text yields
      the default. */
  function GetIntegerFromEnv(env: Environment, envVariable: string, defaultValue: int): (r: int)
    ensures envVariable !in env ==> r == defaultValue
    ensures envVariable in env && ParseInt(env[envVariable]).None? ==> r == defaultValue
    ensures envVariable in env && ParseInt(env[envVariable]).Some? ==>
      r == ParseInt(env[envVariable]).value
  {
    match GetEnv(env, envVariable)
    case None => defaultValue
    case Some(envValue) => ParseInt(envValue).GetOr(defaultValue)
  }

  /** A variable holding the decimal rendering of `n` reads back as `n`, unless
      the rendering is longer than `int()` accepts, when it gives the default. */
  lemma IntegerRoundTrip(env: Environment, envVariable: string, n: int, defaultValue: int)
    requires envVariable in env && env[envVariable] == IntToString(n)
    ensures DecimalDigits(n) <= MaxStrDigits ==> GetIntegerFromEnv(env, envVariable, defaultValue) == n
    ensures DecimalDigits(n) > MaxStrDigits ==> GetIntegerFromEnv(env, envVariable, defaultValue) == defaultValue
  {
    ParseIntRoundTrip(n);
  }

  /** An empty or blank value is not an integer: the default is returned. */
  lemma IntegerBlankGivesDefault(env: Environment, envVariable: string, defaultValue: int)
    requires envVariable in env
    requires forall i :: 0 <= i < |env[envVariable]| ==> IsIntSpace(env[envVariable][i])
    ensures GetIntegerFromEnv(env, envVariable, defaultValue) == defaultValue
  {
  }

  /** `get_float_from_env`, over an abstract `float()` that gives `None` where
      Python raises ValueError. */
  function GetFloatFromEnv<F>(env: Environment, envVariable: string, defaultValue: F,
                              parseFloat: string -> Option<F>): (r: F)
    ensures envVariable !in env ==> r == defaultValue
    ensures envVariable in env && parseFloat(env[envVariable]).None? ==> r == defaultValue
    ensures envVariable in env && parseFloat(env[envVariable]).Some? ==>
      r == parseFloat(env[envVariable]).value
  {
    match GetEnv(env, envVariable)
    case None => defaultValue
    case Some(envValue) => parseFloat(envValue).GetOr(defaultValue)
  }

  /** The float accessor has the integer accessor's control flow: given
      `int()` as its parser, it is the integer accessor. */
  lemma FloatFollowsIntegerPolicy(env: Environment, envVariable: string, defaultValue: int)
    ensures GetFloatFromEnv(env, envVariable, defaultValue, ParseInt)
         == GetIntegerFromEnv(env, envVariable, defaultValue)
  {
  }

  /** `get_string_from_env` as written: when the variable is unset and no
      error is requested, `str(None)` yields the text `"None"`; the `except`
      branch that would return `defaultValue` cannot be reached. */
  function GetStringFromEnv(env: Environment, envVariable: string, defaultValue: string := "",
                            errorOnMissingValue: bool := false)
    : (r: Result<string, NotFoundError>)
    ensures errorOnMissingValue && envVariable !in env ==> r == Err(NewNotFoundError(envVariable))
    ensures envVariable in env ==> r == Ok(env[envVariable])
    ensures !errorOnMissingValue && envVariable !in env ==> r == Ok("None")
  {
    var envValue := GetEnv(env, envVariable);
    if errorOnMissingValue && envValue.None? then Err(NewNotFoundError(envVariable))
    else Ok(StrOfOptional(envValue))
  }

  /** The documented behaviour: an unset variable with no error requested
      yields `defaultValue`. */
  function GetStringFromEnvIntended(env: Environment, envVariable: string, defaultValue: string := "",
                                    errorOnMissingValue: bool := false)
    : (r: Result<string, NotFoundError>)
    ensures errorOnMissingValue && envVariable !in env ==> r == Err(NewNotFoundError(envVariable))
    ensures envVariable in env ==> r == Ok(env[envVariable])
    ensures !errorOnMissingValue && envVariable !in env ==> r == Ok(defaultValue)
  {
    match GetEnv(env, envVariable)
    case None => if errorOnMissingValue then Err(NewNotFoundError(envVariable)) else Ok(defaultValue)
    case Some(envValue) => Ok(envValue)
  }

  /** The written accessor never returns a default other than `"None"`: it
      differs from the documented one exactly when the variable is unset, no
      error is requested and the default is some other text. */
  lemma StringDefaultIsUnreachable(env: Environment, envVariable: string, defaultValue: string,
                                   errorOnMissingValue: bool)
    ensures GetStringFromEnv(env, envVariable, defaultValue, errorOnMissingValue)
              != GetStringFromEnvIntended(env, envVariable, defaultValue, errorOnMissingValue)
        <==> defaultValue != "None" && !errorOnMissingValue && envVariable !in env
  {
  }

  /** A concrete witness: an empty environment, the default `"fallback"`. */
  lemma StringDefaultCounterexample()
    ensures GetStringFromEnv(map[], "MISSING", "fallback") == Ok("None")
    ensures GetStringFromEnvIntended(map[], "MISSING", "fallback") == Ok("fallback")
  {
  }

  /** The words `get_boolean_from_env` accepts, after lower-casing. */
  const TrueWords: set<string> := {"true", "1", "yes", "on"}
  const FalseWords: set<string> := {"false", "0", "no", "off"}

  /** No word is both true and false, so the classification is well defined. */
  lemma BooleanWordsDisjoint()
    ensures TrueWords * FalseWords == {}
  {
  }

  /** The boolean a value denotes, or `None` if it denotes none. */
  function ClassifyBoolean(value: string): (r: Option<bool>)
    ensures r == Some(true) <==> AsciiLower(value) in TrueWords
    ensures r == Some(false) <==> AsciiLower(value) in FalseWords
    ensures r == None <==> AsciiLower(value) !in TrueWords + FalseWords
  {
    BooleanWordsDisjoint();
    var lowerEnvValue := AsciiLower(value);
    if lowerEnvValue in TrueWords then Some(true)
    else if lowerEnvValue in FalseWords then Some(false)
    else None
  }

  /** `get_boolean_from_env`: a recognised word gives its boolean; an unset
      variable or any other value gives the default. */
  function GetBooleanFromEnv(env: Environment, envVariable: string, defaultValue: bool): (r: bool)
    ensures envVariable !in env ==> r == defaultValue
    ensures envVariable in env && AsciiLower(env[envVariable]) in TrueWords ==> r
    ensures envVariable in env && AsciiLower(env[envVariable]) in FalseWords ==> !r
    ensures envVariable in env && AsciiLower(env[envVariable]) !in TrueWords + FalseWords ==>
      r == defaultValue
  {
    match GetEnv(env, envVariable)
    case None => defaultValue
    case Some(envValue) => ClassifyBoolean(envValue).GetOr(defaultValue)
  }

  /** Case does not matter: a value and its lower-cased form read the same. */
  lemma BooleanCaseInsensitive(env: Environment, envVariable: string, value: string, defaultValue: bool)
    ensures GetBooleanFromEnv(env[envVariable := value], envVariable, defaultValue)
         == GetBooleanFromEnv(env[envVariable := AsciiLower(value)], envVariable, defaultValue)
  {
    AsciiLowerIdempotent(value);
  }

  /** Upper- and mixed-case spellings of the true words are true. */
  lemma BooleanTrueCasings(env: Environment, envVariable: string, defaultValue: bool)
    ensures GetBooleanFromEnv(env[envVariable := "TRUE"], envVariable, defaultValue)
    ensures GetBooleanFromEnv(env[envVariable := "True"], envVariable, defaultValue)
    ensures GetBooleanFromEnv(env[envVariable := "On"], envVariable, defaultValue)
  {
    assert AsciiLower("TRUE") == "true";
    assert AsciiLower("True") == "true";
    assert AsciiLower("On") == "on";
  }

  /** Upper- and mixed-case spellings of the false words are false. */
  lemma BooleanFalseCasings(env: Environment, envVariable: string, defaultValue: bool)
    ensures !GetBooleanFromEnv(env[envVariable := "FALSE"], envVariable, defaultValue)
    ensures !GetBooleanFromEnv(env[envVariable := "No"], envVariable, defaultValue)
  {
    assert AsciiLower("FALSE") == "false";
    assert AsciiLower("No") == "no";
  }

  /** Values are not stripped: padding around a word makes it unrecognised. */
  lemma BooleanNoTrimming(env: Environment, envVariable: string, defaultValue: bool)
    ensures GetBooleanFromEnv(env[envVariable := " true"], envVariable, defaultValue) == defaultValue
    ensures GetBooleanFromEnv(env[envVariable := "yes\n"], envVariable, defaultValue) == defaultValue
    ensures GetBooleanFromEnv(env[envVariable := "maybe"], envVariable, defaultValue) == defaultValue
  {
  }
}

=== FILE: cnv_variables.dfy ===
/** Typed environment accessors of the cnv_apps utilities: the older policy,
    where every failure is a `ValueError` and a path must exist. */
module CnvAppsVariables {
  import opened Results
  import opened PyText
  import opened Environ

  /** The fallback of `get_integer_from_env` when the caller gives none. */
  const DefaultIntegerFallback := 300

  function NotSetMessage(name: string): string {
    "Error: " + name + " environment variable not set!"
  }

  function MissingPathMessage(envValue: string): string {
    "Path set in .env file " + envValue + " does not exist."
  }

  /** `get_path_from_env`: the variable must be set and its path must exist;
      there is no way to skip the existence check. */
  function GetPathFromEnv(env: Environment, pathExists: ExistsOracle, value: string)
    : (r: Result<Path, PyError>)
    ensures value !in env ==> r == Err(ValueError(NotSetMessage(value)))
    ensures value in env && !pathExists(env[value]) ==>
      r == Err(ValueError(MissingPathMessage(env[value])))
    ensures r.Ok? <==> value in env && pathExists(env[value])
    ensures r.Ok? ==> r.value == Path(env[value])
  {
    match GetEnv(env, value)
    case None => Err(ValueError(NotSetMessage(value)))
    case Some(envValue) =>
      if !pathExists(envValue) then Err(ValueError(MissingPathMessage(envValue)))
      else Ok(Path(envValue))
  }

  /** `get_integer_from_env` as written: `int(None)` raises TypeError, which
      the `except ValueError` clause does not catch, so an unset variable is
      an error rather than the default. */
  function GetIntegerFromEnv(env: Environment, value: string,
                             defaultValue: int := DefaultIntegerFallback)
    : (r: Result<int, PyError>)
    ensures value !in env ==> r == Err(TypeError("NoneType"))
    ensures value in env ==> r.Ok?
    ensures value in env && ParseInt(env[value]).Some? ==> r.value == ParseInt(env[value]).value
    ensures value in env && ParseInt(env[value]).None? ==> r.value == defaultValue
  {
    match GetEnv(env, value)
    case None => Err(TypeError("NoneType"))
    case Some(envValue) => Ok(ParseInt(envValue).GetOr(defaultValue))
  }

  /** The documented behaviour: an unset variable also falls back to the
      default, so the accessor never fails. */
  function GetIntegerFromEnvIntended(env: Environment, value: string,
                                     defaultValue: int := DefaultIntegerFallback): (r: int)
    ensures value !in env ==> r == defaultValue
    ensures value in env && ParseInt(env[value]).Some? ==> r == ParseInt(env[value]).value
    ensures value in env && ParseInt(env[value]).None? ==> r == defaultValue
  {
    match GetEnv(env, value)
    case None => defaultValue
    case Some(envValue) => ParseInt(envValue).GetOr(defaultValue)
  }

  /** The written accessor fails exactly where the documented one returns its
      default for an unset variable, and they agree wherever it is set. */
  lemma IntegerUnsetEscapes(env: Environment, value: string, defaultValue: int)
    ensures value !in env <==> GetIntegerFromEnv(env, value, defaultValue).Err?
    ensures value in env ==>
      GetIntegerFromEnv(env, value, defaultValue) == Ok(GetIntegerFromEnvIntended(env, value, defaultValue))
  {
  }

  /** A concrete witness: the empty environment. */
  lemma IntegerUnsetCounterexample()
    ensures GetIntegerFromEnv(map[], "TIMEOUT") == Err(TypeError("NoneType"))
    ensures GetIntegerFromEnvIntended(map[], "TIMEOUT") == 300
  {
  }

  /** The rendering of `n` reads back as `n` when `int()` accepts its length;
      text `int()` refuses gives 300 when no default is passed. */
  lemma IntegerRoundTrip(env: Environment, value: string, n: int)
    requires value in env
    ensures env[value] == IntToString(n) && DecimalDigits(n) <= MaxStrDigits ==>
      GetIntegerFromEnv(env, value) == Ok(n)
    ensures env[value] == IntToString(n) && DecimalDigits(n) > MaxStrDigits ==>
      GetIntegerFromEnv(env, value) == Ok(300)
    ensures ParseInt(env[value]).None? ==> GetIntegerFromEnv(env, value) == Ok(300)
  {
    ParseIntRoundTrip(n);
  }

  /** `get_string_from_env`: the raw value when set (the empty string
      included), a ValueError when unset. */
  function GetStringFromEnv(env: Environment, value: string): (r: Result<string, PyError>)
    ensures value !in env ==> r == Err(ValueError(NotSetMessage(value)))
    ensures value in env ==> r == Ok(env[value])
  {
    match GetEnv(env, value)
    case None => Err(ValueError(NotSetMessage(value)))
    case Some(envValue) => Ok(envValue)
  }
}

=== FILE: console_output.dfy ===
/** `print_in_color`: the text it writes to standard output, or the
    ValueError it raises for an unknown colour name. */
module ConsoleOutput {
  import opened Results

  /** The colour names and their ANSI escape codes, in declaration order. */
  const AvailableColors: map<string, string> := map[
    "white" := "\U{1B}[97m",
    "green" := "\U{1B}[92m",
    "red" := "\U{1B}[91m",
    "blue" := "\U{1B}[94m",
    "yellow" := "\U{1B}[93m",
    "magenta" := "\U{1B}[95m",
    "cyan" := "\U{1B}[96m"]

  /** Python's rendering of `AvailableColors`, as the error message shows it. */
  const AvailableColorsRepr :=
    "{'white': '\\x1b[97m', 'green': '\\x1b[92m', 'red': '\\x1b[91m', 'blue': '\\x1b[94m', "
    + "'yellow': '\\x1b[93m', 'magenta': '\\x1b[95m', 'cyan': '\\x1b[96m'}"

  const EndOfColoredPart := "\U{1B}[00m"

  const DefaultColor := "white"

  /** Every colour code is an escape followed by a two-digit SGR parameter. */
  predicate IsColorCode(code: string) {
    && |code| == 5
    && code[0] == '\U{1B}' && code[1] == '['
    && '0' <= code[2] <= '9' && '0' <= code[3] <= '9'
    && code[4] == 'm'
  }

  /** The line printed for `message` in `color`: the colour code, the message,
      the reset code and the newline `print` adds. */
  function PrintInColor(message: string, color: string := DefaultColor): (r: Result<string, PyError>)
    ensures r.Ok? <==> color in AvailableColors
    ensures r.Err? ==>
      r.error == ValueError("Invalid color: " + color + ". Available colors: " + AvailableColorsRepr)
    ensures r.Ok? ==>
      && |r.value| == |message| + 11
      && r.value[..5] == AvailableColors[color]
      && r.value[5..5 + |message|] == message
      && r.value[5 + |message|..] == EndOfColoredPart + "\n"
  {
    if color !in AvailableColors then
      Err(ValueError("Invalid color: " + color + ". Available colors: " + AvailableColorsRepr))
    else
      assert IsColorCode(AvailableColors[color]);
      Ok(AvailableColors[color] + message + EndOfColoredPart + "\n")
  }

  /** All seven codes are well formed and pairwise distinct. */
  lemma ColorCodesInjective(c1: string, c2: string)
    requires c1 in AvailableColors && c2 in AvailableColors
    ensures IsColorCode(AvailableColors[c1])
    ensures AvailableColors[c1] == AvailableColors[c2] ==> c1 == c2
  {
  }

  /** The printed line determines both the message and the colour. */
  lemma PrintedLineDeterminesInput(m1: string, c1: string, m2: string, c2: string)
    requires PrintInColor(m1, c1).Ok? && PrintInColor(m1, c1) == PrintInColor(m2, c2)
    ensures m1 == m2 && c1 == c2
  {
  }

  /** Colour names are case-sensitive. */
  lemma ColorNamesCaseSensitive(message: string)
    ensures PrintInColor(message, "Red").Err?
    ensures PrintInColor(message, "WHITE").Err?
    ensures PrintInColor(message, "red").Ok?
  {
  }

  /** Without a colour argument the text is printed in white. */
  lemma DefaultIsWhite(message: string)
    ensures PrintInColor(message) == Ok("\U{1B}[97m" + message + "\U{1B}[00m\n")
  {
    assert EndOfColoredPart + "\n" == "\U{1B}[00m\n";
    assert AvailableColors[DefaultColor] + message + EndOfColoredPart + "\n"
        == "\U{1B}[97m" + message + ("\U{1B}[00m" + "\n");
  }
}

=== FILE: environ.dfy ===
/** The process environment as both accessor modules see it: a read-only map
    from variable names to values, and filesystem existence as a predicate
    supplied by the caller. */
module Environ {
  import opened Results

  type Environment = map<string, string>

  /** `os.path.exists`, as a fixed predicate over path text. */
  type ExistsOracle = string -> bool

  /** A `pathlib.Path`, kept as the text it was built from. */
  datatype Path = Path(text: string)

  /** `os.getenv(name)`: the value, or `None` when the variable is unset. */
  function GetEnv(env: Environment, name: string): (r: Option<string>)
    ensures r.Some? <==> name in env
    ensures r.Some? ==> r.value == env[name]
  {
    if name in env then Some(env[name]) else None
  }
}

=== FILE: logger_config.dfy ===
/** The decisions `Logger.__init__` of the cnv_apps utilities makes: which
    level names it accepts, the numeric level each maps to, and which handlers
    it attaches to the named logger. Loggers live in a registry keyed by name,
    as `logging.getLogger` keeps them. */
module LoggerConfig {
  import opened Results
  import opened PyText

  // Numeric levels of Python's `logging` module.
  const NOTSET: int := 0
  const DEBUG: int := 10
  const INFO: int := 20
  const WARNING: int := 30
  const ERROR: int := 40
  const CRITICAL: int := 50

  /** The accepted level names, in increasing severity. */
  const LogLevels: seq<string> := ["none", "debug", "info", "warning", "error", "critical"]

  /** `','.join(LogLevels)`, as the error message shows it. */
  const LevelChoices := "none,debug,info,warning,error,critical"

  /** The numeric level a lower-cased name selects; the console and the file
      level are chosen by the same chain of comparisons. */
  function NumericLevel(name: string): (level: int)
    ensures forall i :: 0 <= i < |LogLevels| && LogLevels[i] == name ==> level == 10 * i
    ensures name !in LogLevels ==> level == NOTSET
  {
    if name == "info" then INFO
    else if name == "warning" then WARNING
    else if name == "error" then ERROR
    else if name == "critical" then CRITICAL
    else if name == "debug" then DEBUG
    else NOTSET
  }

  /** Later names in the list select strictly higher levels. */
  lemma NumericLevelIncreasing(i: nat, j: nat)
    requires i < j < |LogLevels|
    ensures NumericLevel(LogLevels[i]) < NumericLevel(LogLevels[j])
  {
  }

  datatype Handler =
    | ConsoleHandler(level: int)
    | FileHandler(filename: string, level: int)
    | EmailHandler(mailhost: string, port: int, fromAddr: string, toAddrs: string,
                   subject: string, user: string, password: string, level: int)

  /** What the model keeps of a `logging.Logger`: its level and its handlers. */
  datatype LoggerState = LoggerState(level: int, handlers: seq<Handler>)

  type Registry = map<string, LoggerState>

  /** A logger `getLogger` has just created. */
  const FreshLogger := LoggerState(NOTSET, [])

  /** `logging.getLogger(name)`: registers a fresh logger if the name is new. */
  function Registered(registry: Registry, name: string): (r: Registry)
    ensures r.Keys == registry.Keys + {name}
    ensures name in registry ==> r == registry
    ensures name !in registry ==> r[name] == FreshLogger
    ensures forall other :: other in registry ==> r[other] == registry[other]
  {
    if name in registry then registry else registry[name := FreshLogger]
  }

  /** The arguments of `Logger.__init__` other than the name. `fileLogLevel`
      and `logFile` are `None` where Python passes None. */
  datatype LoggerArgs = LoggerArgs(
    logFile: Option<string>,
    fileLogLevel: Option<string>,
    logLevel: string,
    smtpUser: string,
    smtpHost: string,
    smtpPassword: string,
    emailTo: string,
    emailSubject: string,
    smtpPort: int,
    logLevelForEmails: string)

  /** The keyword defaults of `Logger.__init__`. */
  const DefaultArgs := LoggerArgs(None, Some("none"), "info", "", "", "", "", "", 587, "critical")

  /** The file level after normalisation: lower-cased, None read as "none". */
  function FileLevelName(args: LoggerArgs): (n: string)
    ensures args.fileLogLevel.None? ==> n == "none"
    ensures args.fileLogLevel.Some? ==> |n| == |args.fileLogLevel.value|
    ensures forall i :: 0 <= i < |n| ==> !IsAsciiUpper(n[i])
  {
    match args.fileLogLevel
    case Some(f) => AsciiLower(f)
    case None => "none"
  }

  /** The ValueError message for an unknown level, quoting what was passed. */
  function InvalidLevelMessage(provided: string): string {
    "log_level has to be one of the following: " + LevelChoices
      + ". Provided option was " + provided
  }

  /** Both level names are among the accepted ones once normalised. */
  function LevelsValid(args: LoggerArgs): (b: bool)
    ensures args.fileLogLevel.None? ==> (b <==> AsciiLower(args.logLevel) in LogLevels)
  {
    AsciiLower(args.logLevel) in LogLevels && FileLevelName(args) in LogLevels
  }

  /** An email handler is wanted when all four SMTP settings are non-empty and
      the lower-cased console level equals `logLevelForEmails` as given. */
  function WantsEmail(args: LoggerArgs): (b: bool)
    ensures b ==> forall i :: 0 <= i < |args.logLevelForEmails| ==> !IsAsciiUpper(args.logLevelForEmails[i])
  {
    && args.smtpUser != ""
    && args.smtpHost != ""
    && args.smtpPassword != ""
    && args.emailTo != ""
    && AsciiLower(args.logLevel) == args.logLevelForEmails
  }

  /** The handlers attached to a logger that has none yet: always a console
      handler, then a file handler if a file is given, then an email handler
      at CRITICAL if one is wanted. */
  function PlannedHandlers(args: LoggerArgs): (hs: seq<Handler>)
    ensures |hs| == 1 + (if args.logFile.Some? then 1 else 0) + (if WantsEmail(args) then 1 else 0)
    ensures hs[0] == ConsoleHandler(NumericLevel(AsciiLower(args.logLevel)))
    ensures args.logFile.Some? ==>
      hs[1] == FileHandler(args.logFile.value, NumericLevel(FileLevelName(args)))
    ensures WantsEmail(args) ==>
      hs[|hs| - 1] == EmailHandler(args.smtpHost, args.smtpPort, args.smtpUser, args.emailTo,
                                   args.emailSubject, args.smtpUser, args.smtpPassword, CRITICAL)
    ensures forall i :: 0 <= i < |hs| && hs[i].FileHandler? ==> args.logFile.Some?
    ensures forall i :: 0 <= i < |hs| && hs[i].EmailHandler? ==> WantsEmail(args)
    ensures forall i :: 0 <= i < |hs| && hs[i].EmailHandler? ==> hs[i].level == CRITICAL
    ensures forall i :: 0 < i < |hs| ==> !hs[i].ConsoleHandler?
  {
    var console := [ConsoleHandler(NumericLevel(AsciiLower(args.logLevel)))];
    var file := match args.logFile
      case Some(f) => [FileHandler(f, NumericLevel(FileLevelName(args)))]
      case None => [];
    var email := if WantsEmail(args) then
        [EmailHandler(args.smtpHost, args.smtpPort, args.smtpUser, args.emailTo,
                      args.emailSubject, args.smtpUser, args.smtpPassword, CRITICAL)]
      else [];
    console + file + email
  }

  /** The outcome of `Logger(name, ...)`: the registry afterwards, and the
      ValueError message when the constructor raises. The logger is
      registered even when construction is rejected. */
  datatype Construction =
    | Built(registry: Registry)
    | Rejected(registry: Registry, message: string)

  /** `Logger.__init__`, lines 36-120, without formatters and file creation. */
  function Construct(registry: Registry, name: string, args: LoggerArgs): (c: Construction)
    ensures c.registry.Keys == registry.Keys + {name}
    ensures forall other :: other in registry && other != name ==> c.registry[other] == registry[other]
    ensures c.Rejected? <==> !LevelsValid(args)
    ensures AsciiLower(args.logLevel) !in LogLevels ==>
      c == Rejected(Registered(registry, name), InvalidLevelMessage(args.logLevel))
    ensures AsciiLower(args.logLevel) in LogLevels && FileLevelName(args) !in LogLevels ==>
      c == Rejected(Registered(registry, name), InvalidLevelMessage(StrOfOptional(args.fileLogLevel)))
    ensures c.Built? ==> c.registry[name].level == INFO
    ensures c.Built? && name in registry && |registry[name].handlers| > 0 ==>
      c.registry[name].handlers == registry[name].handlers
    ensures c.Built? && (name !in registry || |registry[name].handlers| == 0) ==>
      c.registry[name].handlers == PlannedHandlers(args)
  {
    var reg := Registered(registry, name);
    var logLevel := AsciiLower(args.logLevel);
    var fileLogLevel := FileLevelName(args);
    if logLevel !in LogLevels then
      Rejected(reg, InvalidLevelMessage(args.logLevel))
    else if fileLogLevel !in LogLevels then
      Rejected(reg, InvalidLevelMessage(StrOfOptional(args.fileLogLevel)))
    else
      var logger := reg[name];
      var handlers := if |logger.handlers| == 0 then PlannedHandlers(args) else logger.handlers;
      Built(reg[name := LoggerState(INFO, handlers)])
  }

  /** Constructing a second `Logger` with the same name, whatever its
      arguments, leaves the registry as the first construction left it. */
  lemma ReconstructionKeepsHandlers(registry: Registry, name: string, first: LoggerArgs, second: LoggerArgs)
    requires Construct(registry, name, first).Built?
    requires Construct(Construct(registry, name, first).registry, name, second).Built?
    ensures Construct(Construct(registry, name, first).registry, name, second)
         == Construct(registry, name, first)
  {
  }

  /** Level names are matched without regard to case. */
  lemma UpperCaseLevelAccepted()
    ensures LevelsValid(DefaultArgs.(logLevel := "INFO"))
  {
    assert AsciiLower("INFO") == "info";
    assert AsciiLower("none") == "none";
  }

  /** A file level given as None is read as "none", which is accepted. */
  lemma NoneFileLevelAccepted()
    ensures LevelsValid(DefaultArgs.(fileLogLevel := None))
  {
    assert AsciiLower("info") == "info";
  }

  /** A name outside the list is refused. */
  lemma UnknownLevelRejected()
    ensures !LevelsValid(DefaultArgs.(logLevel := "verbose"))
  {
  }

  /** `logLevelForEmails` is compared without lower-casing it, so a value with
      an upper-case letter never enables the email handler. */
  lemma UpperCaseEmailLevelNeverMatches(args: LoggerArgs, i: nat)
    requires i < |args.logLevelForEmails| && IsAsciiUpper(args.logLevelForEmails[i])
    ensures !WantsEmail(args)
  {
  }

  /** With the default levels ("info" against "critical") no email handler is
      planned, whatever the SMTP settings. */
  lemma DefaultLevelsSendNoEmail(args: LoggerArgs)
    requires args.logLevel == "info" && args.logLevelForEmails == "critical"
    ensures !WantsEmail(args)
  {
  }
}

=== FILE: py_text.dfy ===
/** The parts of Python's text handling that the accessors rely on:
    `str.lower()` restricted to ASCII, the whitespace stripping and decimal
    grammar of `int(str)`, and the decimal rendering `str(int)`. */
module PyText {
  import opened Results

  // ---------------------------------------------------------------------------
  // Lower-casing
  // ---------------------------------------------------------------------------

  predicate IsAsciiUpper(c: char) {
    'A' <= c <= 'Z'
  }

  function AsciiLowerChar(c: char): (d: char)
    ensures !IsAsciiUpper(d)
    ensures IsAsciiUpper(c) ==> d as int == c as int + 32
    ensures !IsAsciiUpper(c) ==> d == c
  {
    if IsAsciiUpper(c) then (c as int + 32) as char else c
  }

  /** `s.lower()` on the ASCII letters; every other character is kept. */
  function AsciiLower(s: string): (t: string)
    ensures |t| == |s|
    ensures forall i :: 0 <= i < |t| ==> t[i] == AsciiLowerChar(s[i])
    ensures forall i :: 0 <= i < |t| ==> !IsAsciiUpper(t[i])
  {
    if |s| == 0 then "" else [AsciiLowerChar(s[0])] + AsciiLower(s[1..])
  }

  /** Lower-casing twice is lower-casing once. */
  lemma AsciiLowerIdempotent(s: string)
    ensures AsciiLower(AsciiLower(s)) == AsciiLower(s)
  {
  }


  /** `str(x)` for an optional string: `str(None)` is the text `"None"`. */
  function StrOfOptional(v: Option<string>): (s: string)
    ensures v.Some? ==> s == v.value
    ensures v.None? ==> s == "None"
  {
    match v
    case Some(x) => x
    case None => "None"
  }

  // ---------------------------------------------------------------------------
  // Whitespace, as `int()` skips it
  // ---------------------------------------------------------------------------

  /** The characters `int()` skips around a number. Below U+007F it skips only
      the C whitespace (space, tab, line feed, vertical tab, form feed,
      carriage return); above, every character `str.isspace()` accepts.
      U+001C to U+001F satisfy `str.isspace()` but are not skipped. */
  predicate IsIntSpace(c: char) {
    c == ' ' || ('\t' <= c <= '\r')
    || c == '\U{85}' || c == '\U{A0}' || c == '\U{1680}'
    || ('\U{2000}' <= c <= '\U{200A}') || c == '\U{2028}' || c == '\U{2029}'
    || c == '\U{202F}' || c == '\U{205F}' || c == '\U{3000}'
  }

  /** Drops the leading whitespace of `s`. */
  function TrimStart(s: string): (t: string)
    ensures |t| <= |s| && t == s[|s| - |t|..]
    ensures forall i :: 0 <= i < |s| - |t| ==> IsIntSpace(s[i])
    ensures |t| > 0 ==> !IsIntSpace(t[0])
  {
    if |s| > 0 && IsIntSpace(s[0]) then TrimStart(s[1..]) else s
  }

  /** Drops the trailing whitespace of `s`. */
  function TrimEnd(s: string): (t: string)
    ensures |t| <= |s| && t == s[..|t|]
    ensures forall i :: |t| <= i < |s| ==> IsIntSpace(s[i])
    ensures |t| > 0 ==> !IsIntSpace(t[|t| - 1])
  {
    if |s| > 0 && IsIntSpace(s[|s| - 1]) then TrimEnd(s[..|s| - 1]) else s
  }

  /** How many whitespace characters `int()` skips at the start of `s`. */
  function LeadingIntSpace(s: string): (k: nat)
    ensures k <= |s| && TrimStart(s) == s[k..]
  {
    |s| - |TrimStart(s)|
  }

  /** The text `int()` reads once surrounding whitespace is skipped: the infix
      of `s` after its leading whitespace that neither starts nor ends with
      whitespace. */
  function StripIntSpace(s: string): (t: string)
    ensures LeadingIntSpace(s) + |t| <= |s|
    ensures t == s[LeadingIntSpace(s)..LeadingIntSpace(s) + |t|]
    ensures |t| > 0 ==> !IsIntSpace(t[0]) && !IsIntSpace(t[|t| - 1])
  {
    TrimEnd(TrimStart(s))
  }

  /** A string already free of surrounding whitespace is left as it is. */
  lemma StripKeepsTrimmed(s: string)
    requires |s| > 0 && !IsIntSpace(s[0]) && !IsIntSpace(s[|s| - 1])
    ensures StripIntSpace(s) == s
  {
  }

  // ---------------------------------------------------------------------------
  // Decimal integers: `int(s)` and `str(n)`
  // ---------------------------------------------------------------------------

  predicate IsDigit(c: char) {
    '0' <= c <= '9'
  }

  function DigitValue(c: char): (v: nat)
    requires IsDigit(c)
    ensures v < 10
  {
    c as int - '0' as int
  }

  function DigitChar(d: nat): (c: char)
    requires d < 10
    ensures IsDigit(c) && DigitValue(c) == d
  {
    ('0' as int + d) as char
  }

  predicate DigitsOrUnderscores(s: string) {
    forall i :: 0 <= i < |s| ==> IsDigit(s[i]) || s[i] == '_'
  }

  /** The body of a base-10 `int()` literal: digits, where a single `_` may
      separate two digits. */
  predicate IsDigitGroups(s: string) {
    && |s| > 0
    && DigitsOrUnderscores(s)
    && IsDigit(s[0])
    && (forall i :: 0 <= i < |s| - 1 ==> s[i] == '_' ==> IsDigit(s[i + 1]))
    && IsDigit(s[|s| - 1])
  }

  /** The number the digits of `s` spell, ignoring separators. */
  function DigitsValue(s: string): nat
    requires DigitsOrUnderscores(s)
  {
    if |s| == 0 then 0
    else if s[|s| - 1] == '_' then DigitsValue(s[..|s| - 1])
    else 10 * DigitsValue(s[..|s| - 1]) + DigitValue(s[|s| - 1])
  }

  /** How many decimal digits `s` holds; separators do not count. */
  function DigitCount(s: string): (k: nat)
    ensures k <= |s|
  {
    if |s| == 0 then 0
    else DigitCount(s[..|s| - 1]) + (if IsDigit(s[|s| - 1]) then 1 else 0)
  }

  /** Python 3.11's default bound on the number of digits `int()` converts
      from text and `str()` renders. */
  const MaxStrDigits: nat := 4300

  /** The unsigned part of an `int()` literal: digit groups of at most
      `MaxStrDigits` digits and the number they spell, or `None`. */
  function ParseDigitGroups(body: string): (r: Option<nat>)
    ensures r.Some? ==> |body| > 0 && IsDigit(body[|body| - 1])
  {
    if IsDigitGroups(body) && DigitCount(body) <= MaxStrDigits then Some(DigitsValue(body)) else None
  }

  /** `int(s)` for a `str` argument: surrounding whitespace is skipped, then an
      optional sign, then digit groups of at most `MaxStrDigits` digits;
      `None` where Python raises ValueError. */
  function ParseInt(s: string): (r: Option<int>)
    ensures (forall i :: 0 <= i < |s| ==> IsIntSpace(s[i])) ==> r.None?
    ensures r.Some? ==> exists i :: 0 <= i < |s| && IsDigit(s[i])
    ensures r.Some? && r.value < 0 ==> exists i :: 0 <= i < |s| && s[i] == '-'
  {
    var t := StripIntSpace(s);
    var signed := |t| > 0 && (t[0] == '-' || t[0] == '+');
    var body := if signed then t[1..] else t;
    match ParseDigitGroups(body)
    case None => None
    case Some(v) =>
      var k := LeadingIntSpace(s);
      assert IsDigit(s[k + |t| - 1]);
      if signed && t[0] == '-' then
        assert s[k] == '-';
        Some(-(v as int))
      else Some(v)
  }

  /** `str(n)` for a natural number: the shortest decimal rendering. */
  function NatToString(n: nat): (s: string)
    ensures |s| > 0
    ensures forall i :: 0 <= i < |s| ==> IsDigit(s[i])
    ensures s[0] == '0' <==> n == 0
  {
    if n < 10 then [DigitChar(n)] else NatToString(n / 10) + [DigitChar(n % 10)]
  }

  /** The decimal rendering of any integer: a minus sign exactly for negative
      numbers, then the digits of its magnitude. */
  function IntToString(n: int): (s: string)
    ensures |s| > 0 && !IsIntSpace(s[0]) && IsDigit(s[|s| - 1])
    ensures s[0] == '-' <==> n < 0
    ensures forall i :: 0 < i < |s| ==> IsDigit(s[i])
    ensures n >= 0 ==> IsDigit(s[0])
    ensures var d := if n < 0 then 1 else 0; |s| > d + 1 ==> s[d] != '0'
  {
    if n < 0 then "-" + NatToString(-n) else NatToString(n)
  }

  /** The number of decimal digits of `n`. */
  function DecimalDigits(n: int): nat {
    |NatToString(if n < 0 then -n else n)|
  }

  lemma {:induction false} NatToStringValue(n: nat)
    ensures IsDigitGroups(NatToString(n))
    ensures DigitsValue(NatToString(n)) == n
  {
    var s := NatToString(n);
    if n >= 10 {
      NatToStringValue(n / 10);
      assert s[..|s| - 1] == NatToString(n / 10);
    }
  }

  /** In a string of digits alone every character counts. */
  lemma {:induction false} DigitCountOfDigits(s: string)
    requires forall i :: 0 <= i < |s| ==> IsDigit(s[i])
    ensures DigitCount(s) == |s|
  {
    if |s| > 0 {
      DigitCountOfDigits(s[..|s| - 1]);
    }
  }

  /** The digits of a rendering are accepted exactly up to the digit bound. */
  lemma ParseDigitGroupsOfRendering(m: nat)
    ensures |NatToString(m)| <= MaxStrDigits ==> ParseDigitGroups(NatToString(m)) == Some(m)
    ensures |NatToString(m)| > MaxStrDigits ==> ParseDigitGroups(NatToString(m)) == None
  {
    NatToStringValue(m);
    DigitCountOfDigits(NatToString(m));
  }

  /** An unsigned rendering is read by its digit groups alone. */
  lemma ParseIntOfNatRendering(s: string, m: nat)
    requires s == NatToString(m)
    ensures ParseInt(s) == ParseDigitGroups(s)
  {
    StripKeepsTrimmed(s);
    assert IsDigit(s[0]);
  }

  /** A rendering with a minus sign reads as the negated digit groups. */
  lemma ParseIntOfNegativeRendering(s: string, m: nat)
    requires s == "-" + NatToString(m)
    ensures ParseDigitGroups(NatToString(m)).None? ==> ParseInt(s) == None
    ensures ParseDigitGroups(NatToString(m)).Some? ==>
      ParseInt(s) == Some(-(ParseDigitGroups(NatToString(m)).value as int))
  {
    StripKeepsTrimmed(s);
    assert s[0] == '-' && s[1..] == NatToString(m);
  }

  /** Parsing the rendering of an integer gives that integer back when it has
      at most `MaxStrDigits` digits, and is refused when it has more. */
  lemma ParseIntRoundTrip(n: int)
    ensures DecimalDigits(n) <= MaxStrDigits ==> ParseInt(IntToString(n)) == Some(n)
    ensures DecimalDigits(n) > MaxStrDigits ==> ParseInt(IntToString(n)) == None
  {
    var m: nat := if n < 0 then -n else n;
    var s := IntToString(n);
    ParseDigitGroupsOfRendering(m);
    if n < 0 {
      assert s == "-" + NatToString(m);
      ParseIntOfNegativeRendering(s, m);
    } else {
      assert s == NatToString(m);
      ParseIntOfNatRendering(s, m);
    }
  }

  /** U+001C passes `str.isspace()` but `int()` does not skip it. */
  lemma ParseIntRejectsFileSeparator()
    ensures ParseInt("\U{1C}5") == None
  {
    var t := "\U{1C}5";
    StripKeepsTrimmed(t);
    assert !IsDigit(t[0]) && t[0] != '-' && t[0] != '+';
  }

  /** Surrounding whitespace is skipped. */
  lemma ParseIntSkipsSpace()
    ensures ParseInt(" 7\n") == Some(7)
  {
    var t := " 7\n";
    var u := "7\n";
    assert IsIntSpace(t[0]) && t[1..] == u && !IsIntSpace(u[0]);
    assert TrimStart(u) == u;
    assert TrimStart(t) == u;
    assert IsIntSpace(u[1]) && u[..1] == "7";
    assert TrimEnd("7") == "7";
    assert TrimEnd(u) == "7";
    assert StripIntSpace(t) == "7";
    assert ParseDigitGroups("7") == Some(7) by {
      assert DigitCount("7") == 1 && DigitsValue("7") == 7;
    }
  }

  /** A single separator between digits is accepted. */
  lemma ParseIntSeparator()
    ensures ParseInt("1_0") == Some(10)
  {
    var t := "1_0";
    StripKeepsTrimmed(t);
    assert IsDigitGroups(t);
    assert t[..2] == "1_" && t[..2][..1] == "1" && "1"[..0] == "";
    assert DigitCount(t) == 2;
    assert DigitsValue(t) == 10;
  }

  /** Two separators in a row are refused. */
  lemma ParseIntDoubleSeparator()
    ensures ParseInt("1__0") == None
  {
    var t := "1__0";
    StripKeepsTrimmed(t);
    assert t[1] == '_' && !IsDigit(t[2]);
  }

  /** Empty and whitespace-only text is not an integer. */
  lemma ParseIntRejectsBlank(s: string)
    requires forall i :: 0 <= i < |s| ==> IsIntSpace(s[i])
    ensures ParseInt(s) == None
  {
  }
}

=== FILE: results.dfy ===
/** Failure-carrying values: an absent environment variable is `None`, and an
    operation that raises in Python returns `Err` with the exception it raises. */
module Results {

  datatype Option<+T> = None | Some(value: T) {

    /** The held value, or `default` when there is none. */
    function GetOr(default: T): T {
      match this
      case Some(v) => v
      case None => default
    }
  }

  datatype Result<+T, +E> = Ok(value: T) | Err(error: E) {

    /** The success value, or `default` on failure. */
    function GetOr(default: T): T {
      match this
      case Ok(v) => v
      case Err(_) => default
    }
  }

  /** The built-in Python exceptions the modelled code raises. `TypeError`
      records the type name of the argument a conversion refused. */
  datatype PyError = ValueError(message: string) | TypeError(argumentType: string)
}

=== FILE: variant_comparison.dfy ===
/** How the two generations of accessors relate: they read the same values
    and differ only in error policy. */
module VariantComparison {
  import opened Results
  import opened Environ
  import CnQuant = CnQuantVariables
  import CnvApps = CnvAppsVariables

  /** With the existence check on, both path accessors succeed on the same
      environments, with the same path; only the exception differs. */
  lemma PathAccessorsAgree(env: Environment, pathExists: ExistsOracle, name: string)
    ensures CnQuant.GetPathFromEnv(env, pathExists, name).Ok?
        <==> CnvApps.GetPathFromEnv(env, pathExists, name).Ok?
    ensures CnQuant.GetPathFromEnv(env, pathExists, name).Ok? ==>
      CnQuant.GetPathFromEnv(env, pathExists, name).value
        == CnvApps.GetPathFromEnv(env, pathExists, name).value
  {
  }

  /** For a set variable both integer accessors give the same number; for an
      unset one the newer returns its default where the older fails. */
  lemma IntegerAccessorsAgree(env: Environment, name: string, defaultValue: int)
    ensures name in env ==>
      CnvApps.GetIntegerFromEnv(env, name, defaultValue)
        == Ok(CnQuant.GetIntegerFromEnv(env, name, defaultValue))
    ensures name !in env ==>
      CnQuant.GetIntegerFromEnv(env, name, defaultValue) == defaultValue
      && CnvApps.GetIntegerFromEnv(env, name, defaultValue).Err?
    ensures CnQuant.GetIntegerFromEnv(env, name, defaultValue)
         == CnvApps.GetIntegerFromEnvIntended(env, name, defaultValue)
  {
  }

  /** The newer string accessor with `error_on_missing_value` set behaves as
      the older one: same value when set, failure when unset. Without the flag
      it never fails and returns the value or the default. */
  lemma StringAccessorsAgree(env: Environment, name: string, defaultValue: string)
    ensures CnQuant.GetStringFromEnvIntended(env, name, defaultValue, true).Ok?
        <==> CnvApps.GetStringFromEnv(env, name).Ok?
    ensures CnQuant.GetStringFromEnvIntended(env, name, defaultValue, true).Ok? ==>
      CnQuant.GetStringFromEnvIntended(env, name, defaultValue, true).value
        == CnvApps.GetStringFromEnv(env, name).value
    ensures CnQuant.GetStringFromEnvIntended(env, name, defaultValue, false)
         == Ok(CnvApps.GetStringFromEnv(env, name).GetOr(defaultValue))
  {
  }
}
